=== FILE: README.md ===
# Snake: grid, rasterisers, snake simulation and pixel compositor in Dafny

This project models the core of a small real-time Snake game written in Rust. The game lays
a grid of square cells over the window and turns a cell into raw pixel coordinates, either
as a full square or as an inscribed circle. It moves a snake (a sequence of cells, head
first) one cell per tick and grows it when the head reaches the apple. It then writes the
resulting pixels, in opaque white, into a flat RGBA frame buffer.

Modules, following the source files:

- `Grids` (`grids.dfy`, src/resource.rs `Grid`, `point_in_circle`): the grid record, `NewGrid`,
  the as-written `ChangeWindow` and the corrected `Resize`. It also holds the square and circle rasterisers as methods whose nested
  loops follow the source. Their reference definitions are the recursive `Column`/`Block`
  and the filter `KeepInCircle`.
- `Shapes` (`shapes.dfy`, src/resource.rs `Square`, `Circle`): placing a shape on a grid.
- `Worlds` (`worlds.dfy`, src/resource.rs `GameWorld`): direction, movement, the apple
  check, and the tick order `check_for_apple(); move_snake();` of src/main.rs.
- `Entropy` (`entropy.dfy`, src/game.rs `random`): the clock reading is a parameter.
- `Compositor` (`compositor.dfy`, src/game.rs `draw_on_point`, `draw_object`, `COLOR`).
- `Game` (`game.dfy`, src/game.rs `init`, `SIZE`): the initial world, the first tick in the
  default 800 x 600 window, and what drawing one body cell's square or the apple's circle
  does to the frame.

Coordinates and sizes are the source's `u32` values, modelled as `nat`.

The model follows the code on wraparound, on recomputing cell counts and on the score:

- Movement does not wrap around the grid. `get_next` does plain `±1` on `u32`, so moving Up
  from row 0 or Left from column 0 underflows. Here that is a precondition (`CanStep`).
- `change_window` replaces only the pixel size and leaves the cell counts stale (see Findings).
- There is no score and no tick-rate ramp. src/main.rs uses `score` and `snake_fps`, but
  `GameWorld` does not define them at this revision.
- A pixel whose column is at or past the row width is not skipped. The bounds check is on the
  byte offset only, so column `x` lands `x / width` rows further down, at column `x % width`
  (`WideColumnSpillsToNextRow`, `WideColumnLandsBelow`).
- In the default window the first tick moves the head from (0, 0) down to (0, 1). The body
  becomes `[(0, 1), (0, 0)]` (`FirstTickOnDefaultWindow`).

## Model

| member | source | states |
|---|---|---|
| Grids.NewGrid | src/resource.rs:136-147 | stores width, height and size unchanged; the cell counts are the number of whole cells that fit (`count * size <= len < (count + 1) * size`) |
| Grids.ChangeWindow | src/resource.rs:149-152 | replaces width and height; size and both cell counts are left untouched |
| Grids.ChangeWindowLeavesStaleCounts | src/resource.rs:149-152 | shrinking 800x600 to 400x300 with 20-pixel cells keeps 40x30 cells, which no longer fit the window |
| Grids.ChangeWindowConsistentIff | src/resource.rs:136-152 | for any grid and window, the kept cell counts fit the new window exactly when they equal `width / size` and `height / size`, the counts `Grid::new` would compute |
| Grids.Resize | src/resource.rs:149-152 | the corrected resize: new pixel size, same cell size, cell counts consistent with the new window |
| Grids.ResizeRoundTrip | src/resource.rs:136-152 | resizing and resizing back restores a consistent grid exactly |
| Grids.ColumnMembers | src/resource.rs:183-185 | one column of a block holds exactly its `n` pixels |
| Grids.ColumnOrdered | src/resource.rs:183-185 | one column of a block lists its pixels in strictly increasing y |
| Grids.BlockLength | src/resource.rs:182-186 | a block holds `cols * rows` pixels |
| Grids.BlockMembers | src/resource.rs:182-186 | a block holds exactly the pixels of its rectangle |
| Grids.BlockOrdered | src/resource.rs:182-186 | a block lists its pixels strictly increasing in x-outer, y-inner order, so they are pairwise distinct |
| Grids.SquarePointsAtGrid | src/resource.rs:177-189 | returns `size * size` points, exactly the pixels of the cell's block, pairwise distinct, in x-outer, y-inner order |
| Grids.PointInCircle | src/resource.rs:193-197 | inclusive test: the point is inside exactly when its squared distances along the axes sum to at most the squared radius, whatever the signs of the offsets and of the radius |
| Grids.CircleBoundingBox | src/resource.rs:192-197 | the centre is always inside the inclusive circle; a point inside lies within `radius` of the centre on each axis |
| Grids.KeepAppend | src/resource.rs:166-172 | keeping the in-circle points of a concatenation is the concatenation of the kept parts |
| Grids.KeepMembers | src/resource.rs:166-172 | the kept points are exactly the in-circle points of the input |
| Grids.KeepSubsequence | src/resource.rs:166-172 | the kept points form a subsequence of the input |
| Grids.KeepOrdered | src/resource.rs:166-172 | keeping the in-circle points of an ordered sequence leaves it ordered |
| Grids.CircleFacts | src/resource.rs:154-175 | the filtered block holds exactly the in-cell pixels within the radius, as an ordered subsequence of the square, and holds the centre when `size > 0` |
| Grids.KeepStep | src/resource.rs:166-170 | one inner-loop iteration appends the visited pixel exactly when it lies in the circle |
| Grids.ScanCircle | src/resource.rs:166-172 | the nested x-outer, y-inner loops keep exactly the reference filter of the block |
| Grids.CirclePointsAtGrid | src/resource.rs:154-175 | returns exactly the block pixels within `radius` of `(gx*size + size/2, gy*size + size/2)`, as a subsequence of the square's points in the same order; non-empty when `size > 0` |
| Shapes.NewSquare | src/resource.rs:87-94 | a new square carries its fields and no pixels |
| Shapes.NewCircle | src/resource.rs:111-118 | a new circle carries its fields and no pixels |
| Shapes.SquareOnGrid | src/resource.rs:96-99 | the pixels are the whole block of the cell at the grid's size, whatever the square's own `size` field |
| Shapes.CircleOnGrid | src/resource.rs:120-123 | the pixels are those of the cell within radius `grid.size / 2`, whatever the circle's own `radius` field; the centre is included when `grid.size > 0` |
| Worlds.NewWorld | src/resource.rs:20-28 | grid from `Grid::new`, direction Down, body `[(0,0),(0,1)]` (connected), apple at half the cell counts, hence on the grid when the grid is non-empty |
| Worlds.ChangeDirection | src/resource.rs:30-32 | sets the direction, with no reversal guard; body, apple and grid are unchanged |
| Worlds.Step | src/resource.rs:48-67 | the next cell is a neighbour of the head; Up/Down keep x, Left/Right keep y, and the sign of the change matches the direction; Up/Left need a positive coordinate |
| Worlds.StepThenOpposite | src/resource.rs:48-67 | a move followed by the opposite move returns to the start cell |
| Worlds.StepInjective | src/resource.rs:48-67 | different directions lead to different cells |
| Worlds.AdjacentIsStep | src/resource.rs:48-67 | a cell is a neighbour of the head exactly when some legal direction leads to it |
| Worlds.GetNext | src/resource.rs:48-67 | needs a head (`first().unwrap()`); the next head is the head moved one unit in the current direction (`Step`, whose contract fixes the axis and the sign), hence adjacent to it |
| Worlds.MoveSnake | src/resource.rs:34-38 | body length is kept; the new head is the next cell and the rest is the old body without its last cell; grid, apple and direction unchanged |
| Worlds.CheckForApple | src/resource.rs:40-46 | head not on the apple: world unchanged; on the apple: the next head is prepended without a pop (length + 1) and the new apple lies within the cell counts |
| Worlds.Tick | src/main.rs:130-131 | apple check then move: length grows by exactly 1 on an eat and is kept otherwise; on an eat the head advances twice |
| Worlds.TickKeepsConnected | src/main.rs:130-131 | a tick keeps consecutive body cells adjacent |
| Worlds.TickKeepsAppleOnGrid | src/resource.rs:40-46 | a tick keeps the apple within the grid's cell counts |
| Worlds.AddSquare | src/resource.rs:69-71 | a square placed on the world's grid: `grid.size * grid.size` pixels, exactly the cell's block, in x-outer, y-inner order; the `size` argument is ignored |
| Worlds.AddCircle | src/resource.rs:73-75 | a circle placed on the world's grid: exactly the cell's pixels within `grid.size / 2` of its centre, each once, in x-outer, y-inner order; the centre is included when `grid.size > 0`; the `radius` argument is ignored |
| Entropy.Random | src/game.rs:35-41 | needs `limit > 0`; the result is below `limit`, and equals the clock reading when that is already below `limit` |
| Entropy.RandomReachesEveryValue | src/game.rs:35-41 | every value below both the bound and 10^9 (the clock's sub-second range) is produced by some clock reading |
| Compositor.DrawOnPoint | src/game.rs:20-33 | frame length is kept; with `i = (y*width + x)*4`, bytes `i..i+3` become 255 when `i + 3 < len`; every other byte, and the whole frame when out of range, is unchanged |
| Compositor.PaintedCons | src/game.rs:13-18 | a byte is covered by a point list exactly when the first point or the rest covers it |
| Compositor.DrawObject | src/game.rs:13-18 | frame length is kept; a byte becomes 255 exactly when some in-range point covers it; every other byte is unchanged |
| Compositor.DrawObjectIdempotent | src/game.rs:13-33 | drawing the same points twice gives the frame drawn once |
| Compositor.PaintedAppend | src/game.rs:13-18 | a byte is covered by a concatenation of point lists exactly when it is covered by one of them |
| Compositor.DrawObjectOrderFree | src/game.rs:13-18 | drawing `ps + qs` and `qs + ps` give the same frame |
| Compositor.WideColumnSpillsToNextRow | src/game.rs:22-24 | drawing column `width + x` of row `y` is drawing column `x` of row `y + 1` |
| Compositor.WideColumnLandsBelow | src/game.rs:22-24 | for `width > 0`, drawing column `x` of row `y` is drawing column `x % width` of row `y + x / width` |
| Compositor.OffsetInjective | src/game.rs:22 | for columns inside the row width, the byte offset determines the pixel and the channel |
| Compositor.DrawnPixel | src/game.rs:13-33 | for points inside the row width, an in-frame pixel is white after drawing exactly when it is one of the points, and keeps its bytes otherwise |
| Game.Init | src/game.rs:7-11 | a world with 20-pixel cells over the window, consistent cell counts, body `[(0,0),(0,1)]`, direction Down, apple at half the cell counts and on the grid when the window holds a cell |
| Game.FirstTickOnDefaultWindow | src/main.rs:28-29 | in the 800x600 window the grid is 40x30, the apple is at (20, 15), and the first tick gives body `[(0,1),(0,0)]` |
| Game.DrawnBlock | src/game.rs:13-33 | drawing an `n x n` block of pixels inside the row width turns exactly that block white and leaves every other in-frame pixel alone |
| Game.DrawnCell | src/main.rs:140-143 | when the cell's block lies inside the row width (`gx * grid.size + grid.size <= width`), drawing a body cell's square turns exactly that cell's block white and leaves every other in-frame pixel alone |
| Game.DrawnApple | src/main.rs:136-138 | when the apple's cell lies inside the row width (`gx * grid.size + grid.size <= width`), drawing its circle (radius `grid.size / 2` about the cell centre) turns exactly the in-cell, in-circle pixels white and leaves every other in-frame pixel alone |

## Left out

- The window, event loop, `Pixels` surface and buffer resizing, `frame.fill(0)`, `render()` and redraw requests of src/main.rs are I/O and framework plumbing. The key-to-direction mapping is covered only through `ChangeDirection`.
- The `f32` time accumulator of src/main.rs is wall-clock, floating-point timing. `Tick` models one iteration of its loop.
- The wall-clock entropy source of `random` is not modelled. The sub-second nanoseconds are a parameter of `Random`, `CheckForApple` and `Tick`.
- The general `f32` alpha blend is not modelled. Only the constant opaque white is ever drawn, and with it the blend is an exact overwrite.
- src/main.rs uses `score`, `snake_fps`, `draw_number` (the digit renderer), the two-argument `add_square`/`add_circle` and `mod constants`; `GameWorld` and src/game.rs do not define them at this revision. No score or speed-up logic is modelled.
- `u32` overflow is not modelled in `(y*width + x)*4`, `grid_x * size`, `+ 1` in `get_next`, or the `i32` casts and products of `point_in_circle`. Integers are unbounded.
- Entropy.Random: states the bound and reachability of every value, not the approximate uniformity of the clock's nanoseconds, because the clock is not modelled.
- Grids.CirclePointsAtGrid: the circle test is exact integer arithmetic, without the `i32` wrap-around of the source for very large coordinates.
- The drawing loop of src/main.rs is covered one shape at a time: `Game.DrawnCell` for one body cell's square and `Game.DrawnApple` for the apple's circle, each drawn into a frame on its own.

## Findings

| source | as written | input that shows it | evidently intended | confidence | as-written member | corrected member |
|---|---|---|---|---|---|---|
| src/resource.rs:149-152 | `change_window` stores the new pixel size but keeps the old `grid_width`/`grid_height`, which `check_for_apple` then uses as bounds for the next apple | `Grid::new(800, 600, 20)` then `change_window(400, 300)`: 40x30 cells, of which only 20x15 fit, so an apple can be placed off-screen | recompute the cell counts from the unchanged cell size on every resize | low, not executed | Grids.ChangeWindowLeavesStaleCounts | Grids.Resize |

`Resize` is not called elsewhere in the model: the window resize handler of src/main.rs, the only caller of `change_window`, is outside it.

=== FILE: compositor.dfy ===
/**
 The pixel compositor of src/game.rs: writing the constant draw colour into a flat
 RGBA frame buffer, four bytes per pixel, rows of `width` pixels.

 The only colour ever drawn is opaque white. Its alpha is 255 / 255.0 = 1.0 exactly,
 so the `f32` blend `c * 1.0 + dst * 0.0` is `c` exactly and the truncating cast
 back to `u8` keeps it: each channel is overwritten, not blended.
 */
module Compositor {

  type Byte = b: int | 0 <= b < 256

  /** `COLOR`: opaque white. */
  const Color: seq<Byte> := [255, 255, 255, 255]

  /** Byte offset of pixel `(x, y)`: `(y * width + x) * 4`, without `u32` overflow. */
  function Offset(x: nat, y: nat, width: nat): nat {
    (y * width + x) * 4
  }

  /** The bounds check of `draw_on_point`: all four bytes of the pixel are in the frame. */
  predicate InFrame(len: nat, x: nat, y: nat, width: nat) {
    Offset(x, y, width) + 3 < len
  }

  /** Byte `k` belongs to pixel `(x, y)` and that pixel passes the bounds check. */
  predicate Covers(len: nat, x: nat, y: nat, width: nat, k: int) {
    InFrame(len, x, y, width) && Offset(x, y, width) <= k < Offset(x, y, width) + 4
  }

  /** `draw_on_point` with `COLOR`: bytes `i .. i + 3` become the colour when they
      are all in the frame; otherwise the frame is left as it was. */
  function DrawOnPoint(x: nat, y: nat, frame: seq<Byte>, width: nat): (r: seq<Byte>)
    ensures |r| == |frame|
    ensures forall k :: 0 <= k < |r| ==> r[k] == (if Covers(|frame|, x, y, width, k) then 255 else frame[k])
    ensures !InFrame(|frame|, x, y, width) ==> r == frame
  {
    var i := Offset(x, y, width);
    if i + 3 < |frame| then
      frame[i := Color[0]][i + 1 := Color[1]][i + 2 := Color[2]][i + 3 := 255]
    else
      frame
  }

  /** Byte `k` is covered by some point of `points`. */
  ghost predicate Painted(points: seq<(nat, nat)>, len: nat, width: nat, k: int) {
    exists j :: 0 <= j < |points| && Covers(len, points[j].0, points[j].1, width, k)
  }

  lemma PaintedCons(points: seq<(nat, nat)>, len: nat, width: nat, k: int)
    requires |points| > 0
    ensures Painted(points, len, width, k) <==>
            Covers(len, points[0].0, points[0].1, width, k) || Painted(points[1..], len, width, k)
  {
  }

  /** `draw_object`: `draw_on_point` for each point in order. A byte ends up white
      exactly when some in-frame point covers it; every other byte is unchanged. */
  function DrawObject(points: seq<(nat, nat)>, frame: seq<Byte>, width: nat): (r: seq<Byte>)
    ensures |r| == |frame|
    ensures forall k :: 0 <= k < |r| ==> r[k] == (if Painted(points, |frame|, width, k) then 255 else frame[k])
    decreases |points|
  {
    if |points| == 0 then
      frame
    else
      var drawn := DrawOnPoint(points[0].0, points[0].1, frame, width);
      var r := DrawObject(points[1..], drawn, width);
      assert forall k :: 0 <= k < |r| ==> r[k] == (if Painted(points, |frame|, width, k) then 255 else frame[k]) by {
        forall k | 0 <= k < |r| {
          PaintedCons(points, |frame|, width, k);
        }
      }
      r
  }

  /** Drawing the same points twice gives the frame drawn once. */
  lemma DrawObjectIdempotent(points: seq<(nat, nat)>, frame: seq<Byte>, width: nat)
    ensures DrawObject(points, DrawObject(points, frame, width), width) == DrawObject(points, frame, width)
  {
  }

  /** The order in which the points are drawn does not matter. */
  lemma {:induction false} DrawObjectOrderFree(ps: seq<(nat, nat)>, qs: seq<(nat, nat)>, frame: seq<Byte>, width: nat)
    ensures DrawObject(ps + qs, frame, width) == DrawObject(qs + ps, frame, width)
  {
    var a := DrawObject(ps + qs, frame, width);
    var b := DrawObject(qs + ps, frame, width);
    forall k | 0 <= k < |a|
      ensures a[k] == b[k]
    {
      PaintedAppend(ps, qs, |frame|, width, k);
      PaintedAppend(qs, ps, |frame|, width, k);
    }
  }

  lemma PaintedAppend(ps: seq<(nat, nat)>, qs: seq<(nat, nat)>, len: nat, width: nat, k: int)
    ensures Painted(ps + qs, len, width, k) <==> Painted(ps, len, width, k) || Painted(qs, len, width, k)
  {
    if Painted(ps + qs, len, width, k) {
      var j :| 0 <= j < |ps + qs| && Covers(len, (ps + qs)[j].0, (ps + qs)[j].1, width, k);
      if j >= |ps| {
        assert qs[j - |ps|] == (ps + qs)[j];
      } else {
        assert ps[j] == (ps + qs)[j];
      }
    }
    if Painted(ps, len, width, k) {
      var j :| 0 <= j < |ps| && Covers(len, ps[j].0, ps[j].1, width, k);
      assert (ps + qs)[j] == ps[j];
    }
    if Painted(qs, len, width, k) {
      var j :| 0 <= j < |qs| && Covers(len, qs[j].0, qs[j].1, width, k);
      assert (ps + qs)[|ps| + j] == qs[j];
    }
  }

  /** The bounds check is on the byte offset only: column `width + x` of row `y`
      writes the bytes of column `x` of row `y + 1` instead of being skipped. */
  lemma WideColumnSpillsToNextRow(x: nat, y: nat, frame: seq<Byte>, width: nat)
    ensures DrawOnPoint(width + x, y, frame, width) == DrawOnPoint(x, y + 1, frame, width)
  {
  }

  /** More generally, column `x` of row `y` writes the bytes of column `x % width`
      of row `y + x / width`. */
  lemma WideColumnLandsBelow(x: nat, y: nat, frame: seq<Byte>, width: nat)
    requires width > 0
    ensures DrawOnPoint(x, y, frame, width) == DrawOnPoint(x % width, y + x / width, frame, width)
  {
    var q := x / width;
    assert x == q * width + x % width;
    assert (y + q) * width == y * width + q * width;
    assert Offset(x, y, width) == Offset(x % width, y + q, width);
  }

  /** Pixels with a column inside the row do not share bytes: the byte offset
      determines the pixel. */
  lemma OffsetInjective(x1: nat, y1: nat, x2: nat, y2: nat, width: nat, c1: nat, c2: nat)
    requires x1 < width && x2 < width && c1 < 4 && c2 < 4
    requires Offset(x1, y1, width) + c1 == Offset(x2, y2, width) + c2
    ensures x1 == x2 && y1 == y2 && c1 == c2
  {
    SplitUnique(y1 * width + x1, c1, y2 * width + x2, c2, 4);
    SplitUnique(y1, x1, y2, x2, width);
  }

  /** `q * n + r` with `r < n` determines `q` and `r`. */
  lemma SplitUnique(q1: nat, r1: nat, q2: nat, r2: nat, n: nat)
    requires r1 < n && r2 < n
    requires q1 * n + r1 == q2 * n + r2
    ensures q1 == q2 && r1 == r2
  {
    if q1 < q2 {
      MulStep(q1, q2, n);
    } else if q2 < q1 {
      MulStep(q2, q1, n);
    }
  }

  lemma MulStep(a: nat, b: nat, n: nat)
    requires a < b
    ensures a * n + n <= b * n
  {
    var d: nat := b - a - 1;
    assert b * n == (a + d + 1) * n == a * n + d * n + n;
  }

  /** Every point's column is inside the row width. */
  ghost predicate WithinRow(points: seq<(nat, nat)>, width: nat) {
    forall j :: 0 <= j < |points| ==> points[j].0 < width
  }

  /** For points within the row width, a drawn pixel is white exactly when it is one
      of the points, and keeps its old bytes otherwise. */
  lemma DrawnPixel(points: seq<(nat, nat)>, frame: seq<Byte>, width: nat, x: nat, y: nat, c: nat)
    requires WithinRow(points, width)
    requires x < width && c < 4 && InFrame(|frame|, x, y, width)
    ensures DrawObject(points, frame, width)[Offset(x, y, width) + c] ==
            if (x, y) in points then 255 else frame[Offset(x, y, width) + c]
  {
    var k := Offset(x, y, width) + c;
    if (x, y) in points {
      var j :| 0 <= j < |points| && points[j] == (x, y);
      assert Covers(|frame|, points[j].0, points[j].1, width, k);
    } else if Painted(points, |frame|, width, k) {
      var j :| 0 <= j < |points| && Covers(|frame|, points[j].0, points[j].1, width, k);
      var p := points[j];
      OffsetInjective(x, y, p.0, p.1, width, c, k - Offset(p.0, p.1, width));
      assert false;
    }
  }
}

=== FILE: entropy.dfy ===
/**
 `random` of src/game.rs: the sub-second nanoseconds of the wall clock, reduced
 modulo the bound. The clock reading is an input here.
 */
module Entropy {

  /** `Duration::subsec_nanos` is always below one second. */
  const NanosPerSecond: nat := 1_000_000_000

  /** `random(limit)`; the source panics on `limit == 0` (remainder by zero). */
  function Random(limit: nat, nanos: nat): (r: nat)
    requires limit > 0
    requires nanos < NanosPerSecond
    ensures r < limit
    ensures nanos < limit ==> r == nanos
  {
    nanos % limit
  }

  /** Every value below the bound is produced by some clock reading. */
  lemma {:induction false} RandomReachesEveryValue(limit: nat, v: nat)
    requires limit > 0 && v < limit && v < NanosPerSecond
    ensures exists nanos: nat :: nanos < NanosPerSecond && Random(limit, nanos) == v
  {
    assert Random(limit, v) == v;
  }
}

=== FILE: game.dfy ===
/**
 The game set-up of src/game.rs (the fixed cell size and the initial world), the
 first tick in the default window of src/main.rs, and what drawing one body cell's
 square or the apple's circle does to the frame.
 */
module Game {
  import opened Grids
  import opened Worlds
  import opened Compositor

  /** `SIZE`: every cell is 20 x 20 pixels. */
  const CellSize: nat := 20

  /** `init`: a world over a `width x height` window with 20-pixel cells. */
  function Init(width: nat, height: nat): (w: GameWorld)
    ensures w.grid.width == width && w.grid.height == height && w.grid.size == CellSize
    ensures Consistent(w.grid)
    ensures w.snakeBody == [(0, 0), (0, 1)] && w.direction == Down
    ensures Connected(w.snakeBody)
    ensures 2 * w.apple.0 <= w.grid.gridWidth < 2 * w.apple.0 + 2
    ensures 2 * w.apple.1 <= w.grid.gridHeight < 2 * w.apple.1 + 2
    ensures width >= CellSize && height >= CellSize ==> AppleOnGrid(w)
  {
    NewWorld(width, height, CellSize)
  }

  /** The default 800 x 600 window: a 40 x 30 grid, apple at (20, 15); the first
      tick moves the head down onto (0, 1) and drops the old tail. */
  lemma FirstTickOnDefaultWindow(nanosX: nat, nanosY: nat)
    requires nanosX < Entropy.NanosPerSecond && nanosY < Entropy.NanosPerSecond
    ensures var w := Init(800, 600);
            && w.grid.gridWidth == 40 && w.grid.gridHeight == 30
            && w.apple == (20, 15)
            && CanTick(w)
            && Tick(w, nanosX, nanosY).snakeBody == [(0, 1), (0, 0)]
  {
  }

  /** Drawing the pixels of one cell whose block lies inside the row width turns
      exactly that cell's block white and leaves every other in-frame pixel alone. */
  lemma DrawnCell(g: Grid, gx: nat, gy: nat, frame: seq<Byte>, width: nat, x: nat, y: nat, c: nat)
    requires gx * g.size + g.size <= width
    requires x < width && c < 4 && InFrame(|frame|, x, y, width)
    ensures var block := Block(gx * g.size, gy * g.size, g.size, g.size);
            DrawObject(block, frame, width)[Offset(x, y, width) + c] ==
              if InCell(g, gx, gy, (x, y)) then 255 else frame[Offset(x, y, width) + c]
  {
    DrawnBlock(gx * g.size, gy * g.size, g.size, frame, width, x, y, c);
  }

  /** Drawing the apple's circle (the in-circle pixels of one cell, radius half the
      cell size) whose cell lies inside the row width turns exactly those pixels white
      and leaves every other in-frame pixel alone. */
  lemma DrawnApple(g: Grid, gx: nat, gy: nat, frame: seq<Byte>, width: nat, x: nat, y: nat, c: nat)
    requires gx * g.size + g.size <= width
    requires x < width && c < 4 && InFrame(|frame|, x, y, width)
    ensures var points := KeepInCircle(Block(gx * g.size, gy * g.size, g.size, g.size),
                                       CentreX(g, gx), CentreY(g, gy), g.size / 2);
            DrawObject(points, frame, width)[Offset(x, y, width) + c] ==
              if InCell(g, gx, gy, (x, y)) && PointInCircle(x, y, CentreX(g, gx), CentreY(g, gy), g.size / 2)
              then 255 else frame[Offset(x, y, width) + c]
  {
    var points := KeepInCircle(Block(gx * g.size, gy * g.size, g.size, g.size),
                               CentreX(g, gx), CentreY(g, gy), g.size / 2);
    CircleFacts(g, gx, gy, g.size / 2);
    forall j | 0 <= j < |points|
      ensures points[j].0 < width
    {
      assert points[j] in points;
    }
    DrawnPixel(points, frame, width, x, y, c);
  }

  /** Drawing an `n x n` block of pixels inside the row width turns exactly that
      block white and leaves every other in-frame pixel alone. */
  lemma DrawnBlock(x0: nat, y0: nat, n: nat, frame: seq<Byte>, width: nat, x: nat, y: nat, c: nat)
    requires x0 + n <= width
    requires x < width && c < 4 && InFrame(|frame|, x, y, width)
    ensures DrawObject(Block(x0, y0, n, n), frame, width)[Offset(x, y, width) + c] ==
              if InRect((x, y), x0, y0, n, n) then 255 else frame[Offset(x, y, width) + c]
  {
    var block := Block(x0, y0, n, n);
    BlockWithinRow(x0, y0, n, width);
    BlockMembers(x0, y0, n, n);
    assert (x, y) in block <==> InRect((x, y), x0, y0, n, n);
    DrawnPixel(block, frame, width, x, y, c);
  }

  lemma BlockWithinRow(x0: nat, y0: nat, n: nat, width: nat)
    requires x0 + n <= width
    ensures WithinRow(Block(x0, y0, n, n), width)
  {
    var block := Block(x0, y0, n, n);
    BlockMembers(x0, y0, n, n);
    forall j | 0 <= j < |block|
      ensures block[j].0 < width
    {
      assert block[j] in block;
    }
  }
}

=== FILE: grids.dfy ===
/**
 The logical cell grid laid over the window (src/resource.rs, `Grid`), and the two
 rasterisers that turn one cell into the raw pixel coordinates it covers.

 Coordinates are the source's `u32` values; they are modelled as `nat` and the
 multiplications `grid_x * size` are taken without 32-bit overflow.
 */
module Grids {

  /** A pixel or a cell address, `[x, y]` in the source. */
  type Point = (nat, nat)

  datatype Grid = Grid(width: nat, height: nat, size: nat, gridWidth: nat, gridHeight: nat)

  /** The cell counts are the number of whole cells of side `size` that fit in the window. */
  ghost predicate Consistent(g: Grid) {
    && g.size > 0
    && g.gridWidth * g.size <= g.width < (g.gridWidth + 1) * g.size
    && g.gridHeight * g.size <= g.height < (g.gridHeight + 1) * g.size
  }

  /** `Grid::new`: cell counts by integer division (the source panics on `size == 0`). */
  function NewGrid(width: nat, height: nat, size: nat): (g: Grid)
    requires size > 0
    ensures g.width == width && g.height == height && g.size == size
    ensures Consistent(g)
  {
    var gw, gh := DivCount(width, size), DivCount(height, size);
    Grid(width, height, size, gw, gh)
  }

  /** Integer division by a positive cell size: the number of whole cells that fit. */
  function DivCount(len: nat, size: nat): (c: nat)
    requires size > 0
    ensures c * size <= len < (c + 1) * size
  {
    len / size
  }

  /** `Grid::change_window`, as written: only the pixel size is replaced. */
  function ChangeWindow(g: Grid, width: nat, height: nat): (r: Grid)
    ensures r.width == width && r.height == height
    ensures r.size == g.size && r.gridWidth == g.gridWidth && r.gridHeight == g.gridHeight
  {
    g.(width := width, height := height)
  }

  /** The stale counts fit the new window exactly when they are the counts a fresh
      grid of the same cell size would have. */
  lemma ChangeWindowConsistentIff(g: Grid, width: nat, height: nat)
    requires g.size > 0
    ensures Consistent(ChangeWindow(g, width, height)) <==>
            width / g.size == g.gridWidth && height / g.size == g.gridHeight
  {
    var cw := DivCount(width, g.size);
    var ch := DivCount(height, g.size);
    if Consistent(ChangeWindow(g, width, height)) {
      CountUnique(width, g.size, g.gridWidth, cw);
      CountUnique(height, g.size, g.gridHeight, ch);
    }
  }

  /** Shrinking an 800x600 window of 20-pixel cells to 400x300 leaves 40x30 cells,
      of which only 20x15 still fit in the window. */
  lemma ChangeWindowLeavesStaleCounts()
    ensures var g := ChangeWindow(NewGrid(800, 600, 20), 400, 300);
            && !Consistent(g)
            && g.gridWidth == 40 && g.gridHeight == 30
            && (g.gridWidth - 1) * g.size >= g.width
  {
  }

  /** The resize the cell counts evidently call for: replace the pixel size and
      recompute the counts from the unchanged cell size. */
  function Resize(g: Grid, width: nat, height: nat): (r: Grid)
    requires g.size > 0
    ensures r.width == width && r.height == height && r.size == g.size
    ensures Consistent(r)
  {
    NewGrid(width, height, g.size)
  }

  /** Resizing back to the original window restores the original grid. */
  lemma {:induction false} ResizeRoundTrip(g: Grid, width: nat, height: nat)
    requires Consistent(g)
    ensures Resize(Resize(g, width, height), g.width, g.height) == g
  {
    var r := Resize(Resize(g, width, height), g.width, g.height);
    CountUnique(g.width, g.size, g.gridWidth, r.gridWidth);
    CountUnique(g.height, g.size, g.gridHeight, r.gridHeight);
  }

  /** Only one count satisfies the bracketing of `Consistent`. */
  lemma CountUnique(len: nat, size: nat, c1: nat, c2: nat)
    requires size > 0
    requires c1 * size <= len < (c1 + 1) * size
    requires c2 * size <= len < (c2 + 1) * size
    ensures c1 == c2
  {
  }

  // ---------------------------------------------------------------------------
  // Reference definitions of the rasterised shapes
  // ---------------------------------------------------------------------------

  /** `p` comes before `q` in x-outer, y-inner order. */
  predicate Before(p: Point, q: Point) {
    p.0 < q.0 || (p.0 == q.0 && p.1 < q.1)
  }

  /** Strictly increasing in x-outer, y-inner order (hence pairwise distinct). */
  ghost predicate StrictlyOrdered(s: seq<Point>) {
    forall i, j :: 0 <= i < j < |s| ==> Before(s[i], s[j])
  }

  /** Pixels `(x, y0) .. (x, y0 + n - 1)`, one column of a block. */
  function Column(x: nat, y0: nat, n: nat): seq<Point>
  {
    if n == 0 then [] else Column(x, y0, n - 1) + [(x, y0 + n - 1)]
  }

  /** The `cols`-wide, `rows`-high block at `(x0, y0)`, column after column. */
  function Block(x0: nat, y0: nat, cols: nat, rows: nat): seq<Point>
  {
    if cols == 0 then [] else Block(x0, y0, cols - 1, rows) + Column(x0 + cols - 1, y0, rows)
  }

  /** Pixel `p` lies in the `size x size` block of cell `(gx, gy)`. */
  ghost predicate InCell(g: Grid, gx: nat, gy: nat, p: Point) {
    && gx * g.size <= p.0 < gx * g.size + g.size
    && gy * g.size <= p.1 < gy * g.size + g.size
  }

  /** A column holds exactly its `n` pixels. */
  lemma {:induction false} ColumnMembers(x: nat, y0: nat, n: nat)
    ensures |Column(x, y0, n)| == n
    ensures forall p :: p in Column(x, y0, n) <==> p.0 == x && y0 <= p.1 < y0 + n
  {
    if n > 0 {
      ColumnMembers(x, y0, n - 1);
    }
  }

  /** A column lists its pixels in increasing y. */
  lemma {:induction false} ColumnOrdered(x: nat, y0: nat, n: nat)
    ensures StrictlyOrdered(Column(x, y0, n))
  {
    if n > 0 {
      ColumnOrdered(x, y0, n - 1);
      ColumnMembers(x, y0, n - 1);
      var c := Column(x, y0, n - 1);
      assert Column(x, y0, n) == c + [(x, y0 + n - 1)];
      forall i, j | 0 <= i < j < n
        ensures Before(Column(x, y0, n)[i], Column(x, y0, n)[j])
      {
        if j == n - 1 {
          assert c[i] in c;
        }
      }
    }
  }

  /** A block holds `cols * rows` pixels. */
  lemma {:induction false} BlockLength(x0: nat, y0: nat, cols: nat, rows: nat)
    ensures |Block(x0, y0, cols, rows)| == cols * rows
  {
    if cols > 0 {
      BlockLength(x0, y0, cols - 1, rows);
      ColumnMembers(x0 + cols - 1, y0, rows);
      assert (cols - 1) * rows + rows == cols * rows;
    }
  }

  /** Pixel `p` lies in the `cols`-wide, `rows`-high rectangle at `(x0, y0)`. */
  predicate InRect(p: Point, x0: nat, y0: nat, cols: nat, rows: nat) {
    x0 <= p.0 < x0 + cols && y0 <= p.1 < y0 + rows
  }

  /** A block holds exactly the pixels of its rectangle. */
  lemma {:induction false} BlockMembers(x0: nat, y0: nat, cols: nat, rows: nat)
    ensures forall p :: p in Block(x0, y0, cols, rows) <==> InRect(p, x0, y0, cols, rows)
  {
    if cols > 0 {
      var b := Block(x0, y0, cols - 1, rows);
      var c := Column(x0 + cols - 1, y0, rows);
      BlockMembers(x0, y0, cols - 1, rows);
      ColumnMembers(x0 + cols - 1, y0, rows);
      forall p: Point
        ensures p in Block(x0, y0, cols, rows) <==> InRect(p, x0, y0, cols, rows)
      {
        assert Block(x0, y0, cols, rows) == b + c;
        assert p in b <==> InRect(p, x0, y0, cols - 1, rows);
        assert p in c <==> p.0 == x0 + cols - 1 && y0 <= p.1 < y0 + rows;
      }
    }
  }

  /** A block lists its pixels in strictly increasing x-outer, y-inner order. */
  lemma {:induction false} BlockOrdered(x0: nat, y0: nat, cols: nat, rows: nat)
    ensures StrictlyOrdered(Block(x0, y0, cols, rows))
  {
    if cols > 0 {
      BlockOrdered(x0, y0, cols - 1, rows);
      BlockMembers(x0, y0, cols - 1, rows);
      ColumnMembers(x0 + cols - 1, y0, rows);
      ColumnOrdered(x0 + cols - 1, y0, rows);
      var b := Block(x0, y0, cols - 1, rows);
      var c := Column(x0 + cols - 1, y0, rows);
      assert Block(x0, y0, cols, rows) == b + c;
      forall i, j | 0 <= i < j < |b + c|
        ensures Before((b + c)[i], (b + c)[j])
      {
        if j < |b| {
          assert (b + c)[i] == b[i] && (b + c)[j] == b[j];
        } else if i >= |b| {
          assert (b + c)[i] == c[i - |b|] && (b + c)[j] == c[j - |b|];
        } else {
          assert b[i] in b;
          assert c[j - |b|] in c;
        }
      }
    }
  }

  /** `point_in_circle`: squared Euclidean distance against the squared radius,
      inclusive; the source computes in `i32`, modelled without overflow. */
  predicate PointInCircle(px: int, py: int, cx: int, cy: int, radius: int): (b: bool)
    ensures b <==> Abs(px - cx) * Abs(px - cx) + Abs(py - cy) * Abs(py - cy) <= Abs(radius) * Abs(radius)
  {
    var dx := px - cx;
    var dy := py - cy;
    dx * dx + dy * dy <= radius * radius
  }

  function Abs(a: int): nat {
    if a < 0 then -a else a
  }

  /** A point inside the circle lies in its bounding box, and the centre is always inside. */
  lemma CircleBoundingBox(px: int, py: int, cx: int, cy: int, radius: int)
    ensures PointInCircle(cx, cy, cx, cy, radius)
    ensures PointInCircle(px, py, cx, cy, radius) ==>
              Abs(px - cx) <= Abs(radius) && Abs(py - cy) <= Abs(radius)
  {
    var dx, dy := px - cx, py - cy;
    if PointInCircle(px, py, cx, cy, radius) {
      assert dy * dy >= 0;
      assert dx * dx >= 0;
      SquareMono(dx, radius);
      SquareMono(dy, radius);
    }
  }

  lemma SquareMono(a: int, b: int)
    requires a * a <= b * b
    ensures Abs(a) <= Abs(b)
  {
    assert Abs(a) * Abs(a) == a * a;
    assert Abs(b) * Abs(b) == b * b;
    if Abs(a) > Abs(b) {
      MulStrict(Abs(b), Abs(a));
    }
  }

  lemma MulStrict(a: nat, b: nat)
    requires a < b
    ensures a * a < b * b
  {
  }

  /** The points of `ps` that lie in the circle, in their original order. */
  function KeepInCircle(ps: seq<Point>, cx: int, cy: int, radius: int): seq<Point>
  {
    if |ps| == 0 then []
    else if PointInCircle(ps[0].0, ps[0].1, cx, cy, radius) then [ps[0]] + KeepInCircle(ps[1..], cx, cy, radius)
    else KeepInCircle(ps[1..], cx, cy, radius)
  }

  /** `a` is obtained from `b` by deleting elements. */
  predicate SubsequenceOf(a: seq<Point>, b: seq<Point>)
    decreases |b|
  {
    if |a| == 0 then true
    else if |b| == 0 then false
    else if a[0] == b[0] then SubsequenceOf(a[1..], b[1..])
    else SubsequenceOf(a, b[1..])
  }

  lemma {:induction false} KeepAppend(a: seq<Point>, b: seq<Point>, cx: int, cy: int, radius: int)
    ensures KeepInCircle(a + b, cx, cy, radius) == KeepInCircle(a, cx, cy, radius) + KeepInCircle(b, cx, cy, radius)
  {
    if |a| > 0 {
      assert (a + b)[1..] == a[1..] + b;
      KeepAppend(a[1..], b, cx, cy, radius);
    } else {
      assert a + b == b;
    }
  }

  /** The filter keeps exactly the points of `ps` inside the circle. */
  lemma {:induction false} KeepMembers(ps: seq<Point>, cx: int, cy: int, radius: int)
    ensures forall p :: p in KeepInCircle(ps, cx, cy, radius) <==>
                        p in ps && PointInCircle(p.0, p.1, cx, cy, radius)
  {
    if |ps| > 0 {
      KeepMembers(ps[1..], cx, cy, radius);
      assert ps == [ps[0]] + ps[1..];
    }
  }

  /** The filter only deletes elements. */
  lemma {:induction false} KeepSubsequence(ps: seq<Point>, cx: int, cy: int, radius: int)
    ensures SubsequenceOf(KeepInCircle(ps, cx, cy, radius), ps)
  {
    if |ps| > 0 {
      var rest := KeepInCircle(ps[1..], cx, cy, radius);
      KeepSubsequence(ps[1..], cx, cy, radius);
      if PointInCircle(ps[0].0, ps[0].1, cx, cy, radius) {
        assert ([ps[0]] + rest)[1..] == rest;
      } else if |rest| > 0 {
        KeepMembers(ps[1..], cx, cy, radius);
        assert rest[0] in rest;
        assert rest[0] != ps[0];
      }
    }
  }

  /** The filter keeps an ordered sequence ordered. */
  lemma {:induction false} KeepOrdered(ps: seq<Point>, cx: int, cy: int, radius: int)
    requires StrictlyOrdered(ps)
    ensures StrictlyOrdered(KeepInCircle(ps, cx, cy, radius))
  {
    if |ps| > 0 {
      var rest := KeepInCircle(ps[1..], cx, cy, radius);
      KeepOrdered(ps[1..], cx, cy, radius);
      KeepMembers(ps[1..], cx, cy, radius);
      if PointInCircle(ps[0].0, ps[0].1, cx, cy, radius) {
        var k := [ps[0]] + rest;
        forall i, j | 0 <= i < j < |k|
          ensures Before(k[i], k[j])
        {
          if i == 0 {
            assert k[j] in ps[1..];
            var m :| 0 <= m < |ps[1..]| && ps[1..][m] == k[j];
            assert ps[m + 1] == k[j];
          } else {
            assert k[i] == rest[i - 1] && k[j] == rest[j - 1];
          }
        }
      }
    }
  }

  // ---------------------------------------------------------------------------
  // The rasterisers of the source
  // ---------------------------------------------------------------------------

  /** `Grid::get_square_points_at_grid`: every pixel of the cell's block, x outer, y inner. */
  method SquarePointsAtGrid(g: Grid, gx: nat, gy: nat) returns (points: seq<Point>)
    ensures points == Block(gx * g.size, gy * g.size, g.size, g.size)
    ensures |points| == g.size * g.size
    ensures forall p :: p in points <==> InCell(g, gx, gy, p)
    ensures StrictlyOrdered(points)
  {
    var x0, y0 := gx * g.size, gy * g.size;
    points := [];
    var x := x0;
    while x < x0 + g.size
      invariant x0 <= x <= x0 + g.size
      invariant points == Block(x0, y0, x - x0, g.size)
    {
      var y := y0;
      while y < y0 + g.size
        invariant y0 <= y <= y0 + g.size
        invariant points == Block(x0, y0, x - x0, g.size) + Column(x, y0, y - y0)
      {
        points := points + [(x, y)];
        y := y + 1;
      }
      x := x + 1;
    }
    BlockLength(x0, y0, g.size, g.size);
    BlockMembers(x0, y0, g.size, g.size);
    BlockOrdered(x0, y0, g.size, g.size);
  }

  /** The centre of cell `(gx, gy)` used by the circle rasteriser. */
  function CentreX(g: Grid, gx: nat): nat { gx * g.size + g.size / 2 }
  function CentreY(g: Grid, gy: nat): nat { gy * g.size + g.size / 2 }

  /** What the circle rasteriser returns, stated on the reference definitions. */
  lemma CircleFacts(g: Grid, gx: nat, gy: nat, radius: nat)
    ensures var block := Block(gx * g.size, gy * g.size, g.size, g.size);
            var points := KeepInCircle(block, CentreX(g, gx), CentreY(g, gy), radius);
            && (forall p :: p in points <==>
                  InCell(g, gx, gy, p) && PointInCircle(p.0, p.1, CentreX(g, gx), CentreY(g, gy), radius))
            && SubsequenceOf(points, block)
            && StrictlyOrdered(points)
            && (g.size > 0 ==> (CentreX(g, gx), CentreY(g, gy)) in points)
  {
    var cx, cy := CentreX(g, gx), CentreY(g, gy);
    var block := Block(gx * g.size, gy * g.size, g.size, g.size);
    BlockMembers(gx * g.size, gy * g.size, g.size, g.size);
    BlockOrdered(gx * g.size, gy * g.size, g.size, g.size);
    KeepMembers(block, cx, cy, radius);
    KeepSubsequence(block, cx, cy, radius);
    KeepOrdered(block, cx, cy, radius);
    CircleBoundingBox(cx, cy, cx, cy, radius);
  }

  /** One step of the inner loop of the circle rasteriser. */
  lemma KeepStep(x0: nat, y0: nat, cols: nat, rows: nat, x: nat, n: nat, cx: int, cy: int, radius: int)
    ensures KeepInCircle(Block(x0, y0, cols, rows) + Column(x, y0, n + 1), cx, cy, radius)
         == KeepInCircle(Block(x0, y0, cols, rows) + Column(x, y0, n), cx, cy, radius)
            + (if PointInCircle(x, y0 + n, cx, cy, radius) then [(x, y0 + n)] else [])
  {
    var before := Block(x0, y0, cols, rows) + Column(x, y0, n);
    KeepAppend(before, [(x, y0 + n)], cx, cy, radius);
    assert before + [(x, y0 + n)] == Block(x0, y0, cols, rows) + Column(x, y0, n + 1);
  }

  /** `Grid::get_circle_points_at_grid`: the pixels of the cell's block within
      `radius` of the block's centre, in the square's order. */
  method CirclePointsAtGrid(g: Grid, gx: nat, gy: nat, radius: nat) returns (points: seq<Point>)
    ensures points == KeepInCircle(Block(gx * g.size, gy * g.size, g.size, g.size),
                                   CentreX(g, gx), CentreY(g, gy), radius)
    ensures forall p :: p in points <==>
              InCell(g, gx, gy, p) && PointInCircle(p.0, p.1, CentreX(g, gx), CentreY(g, gy), radius)
    ensures SubsequenceOf(points, Block(gx * g.size, gy * g.size, g.size, g.size))
    ensures StrictlyOrdered(points)
    ensures g.size > 0 ==> (CentreX(g, gx), CentreY(g, gy)) in points
  {
    var x0, y0 := gx * g.size, gy * g.size;
    points := ScanCircle(x0, y0, g.size, x0 + g.size / 2, y0 + g.size / 2, radius);
    CircleFacts(g, gx, gy, radius);
  }

  /** The two nested loops of the circle rasteriser over the `n x n` block at
      `(x0, y0)`: x outer, y inner, keeping the pixels inside the circle. */
  method ScanCircle(x0: nat, y0: nat, n: nat, cx: int, cy: int, radius: int) returns (points: seq<Point>)
    ensures points == KeepInCircle(Block(x0, y0, n, n), cx, cy, radius)
  {
    points := [];
    var x := x0;
    while x < x0 + n
      invariant x0 <= x <= x0 + n
      invariant points == KeepInCircle(Block(x0, y0, x - x0, n), cx, cy, radius)
    {
      var y := y0;
      assert Block(x0, y0, x - x0, n) + Column(x, y0, 0) == Block(x0, y0, x - x0, n);
      while y < y0 + n
        invariant y0 <= y <= y0 + n
        invariant points == KeepInCircle(Block(x0, y0, x - x0, n) + Column(x, y0, y - y0), cx, cy, radius)
      {
        KeepStep(x0, y0, x - x0, n, x, y - y0, cx, cy, radius);
        assert y0 + (y - y0) == y && (y - y0) + 1 == y + 1 - y0;
        if PointInCircle(x, y, cx, cy, radius) {
          points := points + [(x, y)];
        }
        y := y + 1;
      }
      assert Block(x0, y0, x - x0, n) + Column(x, y0, n) == Block(x0, y0, x + 1 - x0, n);
      x := x + 1;
    }
  }
}

=== FILE: shapes.dfy ===
/**
 The transient shapes of src/resource.rs: a `Square` or `Circle` names a grid cell
 and, once placed on a grid, carries the pixels it covers.
 */
module Shapes {
  import opened Grids

  datatype Square = Square(size: nat, gridX: nat, gridY: nat, points: seq<Point>)

  datatype Circle = Circle(radius: nat, gridX: nat, gridY: nat, points: seq<Point>)

  /** `Square::new`: no pixels until placed on a grid. */
  function NewSquare(size: nat, gridX: nat, gridY: nat): (s: Square)
    ensures s.points == [] && s.size == size && s.gridX == gridX && s.gridY == gridY
  {
    Square(size, gridX, gridY, [])
  }

  /** `Circle::new`: no pixels until placed on a grid. */
  function NewCircle(radius: nat, gridX: nat, gridY: nat): (c: Circle)
    ensures c.points == [] && c.radius == radius && c.gridX == gridX && c.gridY == gridY
  {
    Circle(radius, gridX, gridY, [])
  }

  /** `Square::on_grid`: the pixels are the whole block of the cell at the grid's
      own cell size; the square's `size` field plays no part. */
  method SquareOnGrid(s: Square, g: Grid) returns (r: Square)
    ensures r.size == s.size && r.gridX == s.gridX && r.gridY == s.gridY
    ensures |r.points| == g.size * g.size
    ensures forall p :: p in r.points <==> InCell(g, s.gridX, s.gridY, p)
    ensures StrictlyOrdered(r.points)
  {
    var points := SquarePointsAtGrid(g, s.gridX, s.gridY);
    r := s.(points := points);
  }

  /** `Circle::on_grid`: the pixels of the cell inside the circle of radius
      `grid.size / 2` about the cell's centre; the circle's `radius` field plays no part. */
  method CircleOnGrid(c: Circle, g: Grid) returns (r: Circle)
    ensures r.radius == c.radius && r.gridX == c.gridX && r.gridY == c.gridY
    ensures forall p :: p in r.points <==>
              && InCell(g, c.gridX, c.gridY, p)
              && PointInCircle(p.0, p.1, CentreX(g, c.gridX), CentreY(g, c.gridY), g.size / 2)
    ensures StrictlyOrdered(r.points)
    ensures g.size > 0 ==> (CentreX(g, c.gridX), CentreY(g, c.gridY)) in r.points
  {
    var points := CirclePointsAtGrid(g, c.gridX, c.gridY, g.size / 2);
    r := c.(points := points);
  }
}

=== FILE: worlds.dfy ===
/**
 The snake simulation of src/resource.rs (`GameWorld`) and the order in which one
 simulation tick of src/main.rs calls it.

 Cells are `u32` pairs in the source; they are modelled as `nat` pairs. Moving Up
 from row 0 or Left from column 0 underflows in the source, so those moves are
 preconditions here: there is no wraparound.
 */
module Worlds {
  import opened Grids
  import opened Shapes
  import opened Entropy

  datatype Direction = Up | Down | Left | Right

  datatype GameWorld = GameWorld(grid: Grid, snakeBody: seq<Point>, apple: Point, direction: Direction)

  /** The direction that undoes a move in `d`. */
  function Opposite(d: Direction): Direction {
    match d
    case Up => Down
    case Down => Up
    case Left => Right
    case Right => Left
  }

  /** `p` and `q` are grid neighbours: one unit apart along exactly one axis. */
  predicate Adjacent(p: Point, q: Point) {
    Abs(p.0 - q.0) + Abs(p.1 - q.1) == 1
  }

  /** Consecutive body cells are neighbours: the snake is one unbroken path. */
  ghost predicate Connected(body: seq<Point>) {
    forall i :: 0 < i < |body| ==> Adjacent(body[i - 1], body[i])
  }

  /** A move in `d` from `c` does not take a coordinate below 0. */
  predicate CanStep(c: Point, d: Direction) {
    && (d == Up ==> c.1 > 0)
    && (d == Left ==> c.0 > 0)
  }

  /** The cell one unit from `c` in direction `d` (the arms of `get_next`). */
  function Step(c: Point, d: Direction): (n: Point)
    requires CanStep(c, d)
    ensures Adjacent(c, n)
    ensures (d == Up || d == Down) <==> n.0 == c.0
    ensures d == Up ==> n.1 < c.1
    ensures d == Down ==> n.1 > c.1
    ensures d == Left ==> n.0 < c.0
    ensures d == Right ==> n.0 > c.0
  {
    match d
    case Up => (c.0, c.1 - 1)
    case Left => (c.0 - 1, c.1)
    case Down => (c.0, c.1 + 1)
    case Right => (c.0 + 1, c.1)
  }

  /** A move followed by the opposite move returns to the start. */
  lemma StepThenOpposite(c: Point, d: Direction)
    requires CanStep(c, d)
    ensures CanStep(Step(c, d), Opposite(d))
    ensures Step(Step(c, d), Opposite(d)) == c
  {
  }

  /** Different directions lead to different cells. */
  lemma StepInjective(c: Point, d1: Direction, d2: Direction)
    requires CanStep(c, d1) && CanStep(c, d2)
    requires Step(c, d1) == Step(c, d2)
    ensures d1 == d2
  {
  }

  /** The neighbours reachable from `c` are exactly the cells one step away. */
  lemma AdjacentIsStep(c: Point, n: Point)
    ensures Adjacent(c, n) <==> exists d :: CanStep(c, d) && Step(c, d) == n
  {
    if Adjacent(c, n) {
      if n.0 < c.0 {
        assert Step(c, Left) == n;
      } else if n.0 > c.0 {
        assert Step(c, Right) == n;
      } else if n.1 < c.1 {
        assert Step(c, Up) == n;
      } else {
        assert Step(c, Down) == n;
      }
    }
  }

  /** The head exists (`first().unwrap()`) and can move in the current direction. */
  predicate CanMove(w: GameWorld) {
    |w.snakeBody| > 0 && CanStep(w.snakeBody[0], w.direction)
  }

  /** `GameWorld::new`. */
  function NewWorld(width: nat, height: nat, size: nat): (w: GameWorld)
    requires size > 0
    ensures w.grid == NewGrid(width, height, size)
    ensures w.direction == Down
    ensures w.snakeBody == [(0, 0), (0, 1)] && Connected(w.snakeBody)
    ensures 2 * w.apple.0 <= w.grid.gridWidth < 2 * w.apple.0 + 2
    ensures 2 * w.apple.1 <= w.grid.gridHeight < 2 * w.apple.1 + 2
    ensures w.grid.gridWidth > 0 && w.grid.gridHeight > 0 ==> AppleOnGrid(w)
  {
    var grid := NewGrid(width, height, size);
    GameWorld(grid, [(0, 0), (0, 1)], (grid.gridWidth / 2, grid.gridHeight / 2), Down)
  }

  /** The apple lies within the grid's cell counts. */
  predicate AppleOnGrid(w: GameWorld) {
    w.apple.0 < w.grid.gridWidth && w.apple.1 < w.grid.gridHeight
  }

  /** `change_direction`: no reversal guard; nothing but the direction changes. */
  function ChangeDirection(w: GameWorld, d: Direction): (r: GameWorld)
    ensures r.direction == d
    ensures r.grid == w.grid && r.snakeBody == w.snakeBody && r.apple == w.apple
  {
    w.(direction := d)
  }

  /** `get_next`: the head moved one unit in the current direction. */
  function GetNext(w: GameWorld): (n: Point)
    requires CanMove(w)
    ensures Adjacent(w.snakeBody[0], n)
    ensures n == Step(w.snakeBody[0], w.direction)
  {
    Step(w.snakeBody[0], w.direction)
  }

  /** `move_snake`: insert the next head at the front, then pop the last cell. */
  function MoveSnake(w: GameWorld): (r: GameWorld)
    requires CanMove(w)
    ensures |r.snakeBody| == |w.snakeBody|
    ensures r.snakeBody[0] == GetNext(w)
    ensures r.snakeBody[1..] == w.snakeBody[..|w.snakeBody| - 1]
    ensures r.grid == w.grid && r.apple == w.apple && r.direction == w.direction
  {
    var inserted := [GetNext(w)] + w.snakeBody;
    w.(snakeBody := inserted[..|inserted| - 1])
  }

  /** The head is on the apple. */
  predicate Eats(w: GameWorld)
    requires |w.snakeBody| > 0
  {
    w.snakeBody[0] == w.apple
  }

  /** What `check_for_apple` needs: a head, and on an eat a legal move and a
      non-empty grid for `random`. */
  predicate CanCheckForApple(w: GameWorld) {
    && |w.snakeBody| > 0
    && (Eats(w) ==> CanMove(w) && w.grid.gridWidth > 0 && w.grid.gridHeight > 0)
  }

  /** `check_for_apple`: on an eat, grow by inserting the next head without a pop and
      move the apple to a cell drawn from two clock readings. */
  function CheckForApple(w: GameWorld, nanosX: nat, nanosY: nat): (r: GameWorld)
    requires CanCheckForApple(w)
    requires nanosX < NanosPerSecond && nanosY < NanosPerSecond
    ensures !Eats(w) ==> r == w
    ensures Eats(w) ==> && r.snakeBody == [GetNext(w)] + w.snakeBody
                        && |r.snakeBody| == |w.snakeBody| + 1
                        && AppleOnGrid(r)
    ensures r.grid == w.grid && r.direction == w.direction
  {
    if w.snakeBody[0] == w.apple then
      var next := GetNext(w);
      w.(snakeBody := [next] + w.snakeBody,
         apple := (Random(w.grid.gridWidth, nanosX), Random(w.grid.gridHeight, nanosY)))
    else
      w
  }

  /** What one tick needs: the apple check's needs, and a legal move afterwards
      (after an eat the head has already advanced once). */
  predicate CanTick(w: GameWorld) {
    && CanMove(w)
    && CanCheckForApple(w)
    && (Eats(w) ==> CanStep(Step(w.snakeBody[0], w.direction), w.direction))
  }

  /** One simulation tick of src/main.rs: `check_for_apple` then `move_snake`. */
  function Tick(w: GameWorld, nanosX: nat, nanosY: nat): (r: GameWorld)
    requires CanTick(w)
    requires nanosX < NanosPerSecond && nanosY < NanosPerSecond
    ensures |r.snakeBody| == |w.snakeBody| + (if Eats(w) then 1 else 0)
    ensures !Eats(w) ==> r.snakeBody == [GetNext(w)] + w.snakeBody[..|w.snakeBody| - 1]
                         && r.apple == w.apple
    ensures Eats(w) ==> var h := Step(w.snakeBody[0], w.direction);
                        && r.snakeBody == [Step(h, w.direction), h] + w.snakeBody[..|w.snakeBody| - 1]
                        && AppleOnGrid(r)
    ensures r.grid == w.grid && r.direction == w.direction
  {
    var checked := CheckForApple(w, nanosX, nanosY);
    MoveSnake(checked)
  }

  /** A tick keeps the snake an unbroken path. */
  lemma TickKeepsConnected(w: GameWorld, nanosX: nat, nanosY: nat)
    requires CanTick(w) && Connected(w.snakeBody)
    requires nanosX < NanosPerSecond && nanosY < NanosPerSecond
    ensures Connected(Tick(w, nanosX, nanosY).snakeBody)
  {
    var body := w.snakeBody;
    var r := Tick(w, nanosX, nanosY).snakeBody;
    var h := Step(body[0], w.direction);
    var tail := body[..|body| - 1];
    var front := if Eats(w) then [Step(h, w.direction), h] else [h];
    assert r == front + tail;
    forall i | 0 < i < |r|
      ensures Adjacent(r[i - 1], r[i])
    {
      if i > |front| {
        assert r[i - 1] == body[i - 1 - |front|] && r[i] == body[i - |front|];
      }
    }
  }

  /** A tick keeps the apple within the grid's cell counts. */
  lemma TickKeepsAppleOnGrid(w: GameWorld, nanosX: nat, nanosY: nat)
    requires CanTick(w) && AppleOnGrid(w)
    requires nanosX < NanosPerSecond && nanosY < NanosPerSecond
    ensures AppleOnGrid(Tick(w, nanosX, nanosY))
  {
  }

  /** `GameWorld::add_square`: a square on this world's grid. */
  method AddSquare(w: GameWorld, size: nat, x: nat, y: nat) returns (s: Square)
    ensures s.size == size && s.gridX == x && s.gridY == y
    ensures |s.points| == w.grid.size * w.grid.size
    ensures forall p :: p in s.points <==> InCell(w.grid, x, y, p)
    ensures StrictlyOrdered(s.points)
  {
    s := SquareOnGrid(NewSquare(size, x, y), w.grid);
  }

  /** `GameWorld::add_circle`: a circle on this world's grid, at radius `w.grid.size / 2`;
      the `radius` argument is stored but not used for the pixels. */
  method AddCircle(w: GameWorld, radius: nat, x: nat, y: nat) returns (c: Circle)
    ensures c.radius == radius && c.gridX == x && c.gridY == y
    ensures forall p :: p in c.points <==>
              && InCell(w.grid, x, y, p)
              && PointInCircle(p.0, p.1, CentreX(w.grid, x), CentreY(w.grid, y), w.grid.size / 2)
    ensures StrictlyOrdered(c.points)
    ensures w.grid.size > 0 ==> (CentreX(w.grid, x), CentreY(w.grid, y)) in c.points
  {
    c := CircleOnGrid(NewCircle(radius, x, y), w.grid);
  }
}
